=== FILE: README.md ===
# Pitch layout for small-sided games, in Dafny

This project models the pitch-visualisation geometry of the SSG match-demand
planner: given a pitch `length`, a pitch `width` and a player count, it
computes the regulation football markings scaled to the pitch (outline,
halfway line, centre circle and spot, penalty and six-yard boxes, penalty
spots and arcs, goal frames, corner arcs and a 5-unit background grid) and
an automatic layout of numbered player markers split into Team A and Team B.
The picture itself is not modelled: every drawing call becomes a plain
shape descriptor or point, and the layout is a pure function of its three
inputs.

Modules, one per part of the computation:

- `Numeric` (`numeric.dfy`): the Python and numpy primitives the code uses,
  over exact integers and reals: `np.ceil`, `int()` on a float, `min`,
  `min(hi, max(lo, v))`, `range(start, stop, step)`, `np.linspace` and the
  slice `s[:n]`.
- `Shapes` (`shapes.dfy`): points, segments, rectangles, circles and arcs as
  the drawing calls receive them, and reflection in the halfway line.
- `Markings` (`markings.dfy`): the regulation constants, the clipped radius,
  the centred box bands, the background grid and the full set of markings.
- `AutoLayout` (`autolayout.dfy`): markers per row, row count, column and
  row positions, the row-major grid cut to the player count, the team split
  and the 1-based labels.
- `Pitch` (`pitch.dfy`): figure proportions and the complete layout.

Reals are Dafny's exact `real`; `np.linspace(a, b, k)` is `a + i*step` with
`step = (b-a)/(k-1)` for `k >= 2`, and `[a]` for `k = 1`. The player count goes through Python's
`int()` (truncation toward zero) exactly as the code does.

Three behaviours of the code are worth calling out:

- Team split: the code gives Team A the first `n // 2` markers, so for an
  odd player count the extra player is in Team B
  (`AutoLayout.SquadWellFormed`).
- Clipping: only the circle and arc radius and the two box widths are
  clipped. Box depths (16.5 and 5.5) and the spot distance (11) never are,
  so on a pitch of positive length below 33 the penalty boxes overlap
  (`Markings.PenaltyBoxesOverlap`).
- Corner arcs: all four are drawn over the same 0 to 90 degree quadrant
  with no rotation, so only the one at the origin bends into the pitch; the
  other three sweep outside the outline (`Markings.CornerArcsShareQuadrant`).

## Model

Helpers without a row build values that the rows below characterise:
`AutoLayout.CrossProduct` (the row-major grid, see `CrossProductLength`,
`CrossProductIndex` and `CrossProductMembers`), `AutoLayout.Enumerate`
(`enumerate`, see `EnumerateNumbers`), `Markings.GridPositions`,
`Markings.VerticalLines` and `Markings.HorizontalLines` (the background grid,
see `GridPositionsExact` and `GridLinesInterior`), `Markings.CornerArc` (see
`CornerArcsAtCorners` and `CornerArcsShareQuadrant`), and the predicate
`Shapes.Contains` and function `Shapes.QuadrantEnds` used to state them.

| member | source | states |
|---|---|---|
| Numeric.Ceil | app.py:123-124 | `np.ceil` yields the least integer not below its argument: `r - 1 < x <= r` |
| Numeric.CeilDivBounds | app.py:124 | for a positive `p`, `c = ceil(n/p)` is the least count of `p`-sized groups holding `n`: `(c-1)*p < n <= c*p` |
| Numeric.Trunc | app.py:121 | `int()` on a float truncates toward zero: for `x >= 0`, `r <= x < r + 1` and `r >= 0`; for `x < 0`, `r - 1 < x <= r` and `r <= 0` |
| Numeric.Clamp | app.py:123 | `min(hi, max(lo, v))` lies in `[lo, hi]`, is `v` when `v` is in range, `lo` below it and `hi` above it |
| Numeric.PyRange | app.py:115 | `range(start, stop, step)` is empty exactly when `start >= stop` |
| Numeric.PyRangeMembers | app.py:115-118 | item `i` of `range(start, stop, step)` is `start + i*step`, and a value is in the range iff it lies in `[start, stop)` and is congruent to `start` modulo `step` |
| Numeric.Linspace | app.py:125-126 | `np.linspace(a, b, k)` has `k` values, starts at `a` and (for `k >= 2`) ends exactly at `b` |
| Numeric.LinspaceEvenlySpaced | app.py:125-126 | neighbouring linspace values differ by the same step `(b - a)/(k - 1)` |
| Numeric.LinspaceBounds | app.py:125-126 | for `a <= b` every linspace value lies in `[a, b]` |
| Numeric.Take | app.py:127 | the slice `s[:n]` keeps `min(n, len(s))` items, each equal to the item of `s` at the same place |
| Numeric.Min3 | app.py:31 | `min(a, b, c)` is at most each argument and equals one of them |
| Numeric.Min2 | app.py:36-37 | `min(a, b)` is at most each argument and equals one of them |
| Markings.ClippedRadius | app.py:31 | the centre-circle radius (reused for the penalty arcs at line 64) is at most 9.15, at most `length/3` and at most `width/3`, and equals one of the three |
| Markings.CentredBand | app.py:36-39 | a box's effective width is at most its regulation width and at most its share of the pitch width, equals one of the two, and the box is centred: `y0 + height == width - y0` |
| Markings.GridPositionsExact | app.py:115-118 | grid positions are exactly the multiples of 5 in `[5, int(extent))`, item `i` being `5(i+1)`, and each lies strictly between 0 and the extent |
| Markings.PitchMarkings | app.py:21-118 | the outline spans the pitch; circle and both arcs share the clipped radius; left boxes start at 0 and right boxes at `length - depth` and end at `length`; box widths respect both caps and are centred; goal frames share the six-yard `y0` and width and sit just outside each goal line, 1.5 deep, the left ending at 0 and the right starting at `length`; the halfway line runs from `y = 0` to `y = width` at `length/2`; spots at 11 and `length - 11` on the centre line; four corner arcs; one grid line per grid position |
| Markings.MarkingsMirrorSymmetric | app.py:41-97 | every right-hand box, goal frame, spot and arc centre is the reflection of its left-hand twin in the halfway line, and the two spots are equally far from `length/2` |
| Markings.MarkingsBoxesInside | app.py:36-57 | on a pitch of positive width, penalty box, six-yard box and goal frames lie strictly inside the width, and the six-yard box is narrower than the penalty box |
| Markings.PenaltyBoxesOverlap | app.py:41-48 | box depths are not clipped: on a pitch of positive length the penalty boxes overlap iff the length is below 33 |
| Markings.CornerArcsAtCorners | app.py:99-112 | the corner arcs sit exactly on the four pitch corners, each with diameter 2 and a 90-degree sweep |
| Markings.CornerArcsShareQuadrant | app.py:99-112 | every corner arc is unrotated and sweeps 0 to 90 degrees, so each arc other than the one at the origin has an end point outside the outline, while on a pitch at least 1 long and wide both ends of the origin arc lie on it |
| Markings.GridLinesInterior | app.py:114-118 | grid line `i` lies at `5(i+1)`; every vertical grid line spans the full width at an x strictly inside `(0, length)`, every horizontal one spans the full length at a y strictly inside `(0, width)` |
| AutoLayout.PlayerCount | app.py:121 | the player count is the input truncated toward zero: for a non-negative input `n <= players < n + 1` with `n >= 0`, for a negative one `n - 1 < players <= n` with `n <= 0`, so a negative count gives no markers |
| AutoLayout.PerRow | app.py:123 | markers per row lie in `[2, 6]`; the count is 2 iff `n <= 4`, 6 iff `n >= 11`, and otherwise `ceil(n/2)` |
| AutoLayout.RowCount | app.py:124 | `(rows-1)*perRow < n <= rows*perRow`, and there is at least one row for `n >= 1` |
| AutoLayout.ColumnXs | app.py:125 | there is one column position per marker in a row, the first at `0.1 * length` and the last at `0.9 * length` |
| AutoLayout.ColumnsEvenlySpaced | app.py:125 | neighbouring columns are evenly spaced, one step of `0.8 * length / (perRow - 1)` apart |
| AutoLayout.RowYs | app.py:126 | there is one row position per row, the first at `0.2 * width` and, with two or more rows, the last at `0.8 * width` |
| AutoLayout.RowsEvenlySpaced | app.py:126 | neighbouring rows are evenly spaced, one step of `0.6 * width / (rows - 1)` apart |
| AutoLayout.CrossProductLength | app.py:127 | the row-major cross product has `len(xs)*len(ys)` points |
| AutoLayout.CrossProductIndex | app.py:127 | point `k` of the cross product is `(xs[k mod len(xs)], ys[k div len(xs)])` |
| AutoLayout.CrossProductMembers | app.py:127 | every point of the cross product pairs some `x` of `xs` with some `y` of `ys` |
| AutoLayout.PlayerPoints | app.py:121-127 | fewer than two players give no markers |
| AutoLayout.PlayerPointsCount | app.py:123-127 | for `n >= 2` the cut keeps exactly `n` points, all within the `rows` rows |
| AutoLayout.PlayerPointsGrid | app.py:123-127 | point `k` of the cut is column `k mod perRow` of row `k div perRow` |
| AutoLayout.PlayerPointsInsideBox | app.py:125-127 | for non-negative pitch sizes every marker lies in `[0.1L, 0.9L] x [0.2W, 0.8W]`, hence on the pitch |
| AutoLayout.SplitTeams | app.py:129-131 | Team A followed by Team B is the full point list, Team A has `n // 2` points and Team B `n mod 2` more |
| AutoLayout.EnumerateNumbers | app.py:133-134 | label `i` of `enumerate(pts, start)` carries number `start + i` and marks point `i` |
| AutoLayout.PlaceSquad | app.py:121-134 | the markers are the auto-layout points; Team A followed by Team B is the marker list with Team A holding `len // 2`; there is one label per marker, label `k` numbering marker `k` as `k + 1` |
| AutoLayout.SquadWellFormed | app.py:121-134 | `n >= 2` gives exactly `n` markers, Team A the first `n // 2` and Team B the remaining `n - n // 2`; `n < 2` gives no markers, teams or labels; labels are `1..n` in generation order, pairwise distinct, and Team B's numbers continue after Team A's |
| AutoLayout.EightPlayerSquad | app.py:121-134 | with eight players there are four markers per row in two rows, Team A is the first four, Team B the last four, and the labels run 1 to 8 |
| Pitch.AspectRatio | app.py:6 | the ratio times the length is the width, and it is 1 for a pitch of length zero |
| Pitch.FigureSize | app.py:6-8 | the figure is 8 wide and at least 4 high, its height being the larger of 4 and 8 times the aspect ratio (8 for a length of zero) |
| Pitch.GenerateLayout | app.py:6-134 | the figure is the figure size (8 wide, at least 4 high), the markings are those of the pitch with the outline spanning it, and the squad is the placed squad, its two teams making up the marker list and one label per marker |
| Pitch.LayoutFitsPitch | app.py:21-134 | on a pitch of non-negative size all player markers lie within the outline, there is one label per player for two or more players and none otherwise, and the centre circle fits a third of each side |

## Left out

- Rendering: the `st.markdown`, `st.subheader`, `st.pyplot` and `st.caption`
  calls and every matplotlib call (`subplots`, `add_patch`, `scatter`,
  `plot`, `text`, `legend`, axis limits, ticks, aspect). Only the data each
  drawing call receives is modelled.
- Colours, line widths, marker sizes, fonts, `zorder` and line styles are
  cosmetic. Penalty-arc orientations (`angle`, `theta1`, `theta2`) are
  recorded as constants only; for the corner arcs, which are unrotated
  quarter sweeps, the end points are derived in `Shapes.QuadrantEnds`.
- The plot title (app.py:144-148): it formats floats to text and uses the
  area per player, which is computed outside this file.
- Area per player, session totals, demand classification and match ratios:
  that code is not part of this model.
- IEEE floating point: all arithmetic is exact, so rounding in `np.linspace`
  or in `n / per_row` is not modelled; `int()` of a NaN or infinite count,
  which raises in Python, is not representable.
- The team legend (app.py:136) is presentation only.
- AutoLayout.PlayerPointsInsideBox: stated only for a pitch of non-negative
  length and width, because for negative sizes the linspace ranges run
  backwards and the box is empty.

=== FILE: autolayout.dfy ===
/** Automatic placement of numbered player markers on the pitch. Markers
    fill a grid of at most six per row, rows filled bottom to top and each
    row left to right, over the central part of the pitch; the first half
    of the markers (rounded down) is Team A, the rest Team B, and every
    marker carries its 1-based place in that order as its label. */
module AutoLayout {
  import opened Numeric
  import opened Shapes

  const MinPerRow: int := 2
  const MaxPerRow: int := 6

  /** Share of the length and of the width the marker grid spans. */
  const XFrom: real := 0.1
  const XTo: real := 0.9
  const YFrom: real := 0.2
  const YTo: real := 0.8

  /** A marker's number and where it is drawn. */
  datatype Label = Label(number: int, at: Point)

  /** The two scatter groups: Team A and Team B. */
  datatype Teams = Teams(a: seq<Point>, b: seq<Point>)

  /** The marker data handed to the drawing layer. */
  datatype Squad = Squad(points: seq<Point>, teamA: seq<Point>, teamB: seq<Point>, labels: seq<Label>)

  /** `int(players)`: the player count, truncated toward zero. */
  function PlayerCount(players: real): (n: int)
    ensures players >= 0.0 ==> 0 <= n && n as real <= players < (n + 1) as real
    ensures players < 0.0 ==> n <= 0 && (n - 1) as real < players <= n as real
  {
    Trunc(players)
  }

  /** Markers per row: half the squad rounded up, kept within 2 to 6. */
  function PerRow(n: int): (p: int)
    ensures MinPerRow <= p <= MaxPerRow
    ensures p == MinPerRow <==> n <= 4
    ensures p == MaxPerRow <==> n >= 11
    ensures MinPerRow < p < MaxPerRow ==> 2 * p - 1 <= n <= 2 * p
  {
    Clamp(MinPerRow, MaxPerRow, Ceil(n as real / 2.0))
  }

  /** Number of rows: `ceil(n / PerRow(n))`. The rows seat all `n` players
      and leave less than one row of seats empty. */
  function RowCount(n: int): (rows: int)
    ensures (rows - 1) * PerRow(n) < n <= rows * PerRow(n)
    ensures n >= 1 ==> rows >= 1
  {
    CeilDivBounds(n, PerRow(n));
    Ceil(n as real / PerRow(n) as real)
  }

  /** x positions of the columns: `PerRow(n)` values evenly spread over
      `[0.1 * length, 0.9 * length]`. */
  function ColumnXs(length: real, n: int): (xs: seq<real>)
    ensures |xs| == PerRow(n)
    ensures xs[0] == XFrom * length && xs[|xs| - 1] == XTo * length
  {
    Linspace(XFrom * length, XTo * length, PerRow(n))
  }

  /** Neighbouring columns are one equal step of `0.8 * length / (PerRow(n) - 1)` apart. */
  lemma ColumnsEvenlySpaced(length: real, n: int)
    ensures var xs := ColumnXs(length, n);
      forall i :: 0 <= i < |xs| - 1 ==>
        xs[i + 1] - xs[i] == (XTo * length - XFrom * length) / ((|xs| - 1) as real)
  {
    LinspaceEvenlySpaced(XFrom * length, XTo * length, PerRow(n));
  }

  /** y positions of the rows: `RowCount(n)` values evenly spread over
      `[0.2 * width, 0.8 * width]`. */
  function RowYs(width: real, n: int): (ys: seq<real>)
    requires n >= 1
    ensures |ys| == RowCount(n)
    ensures ys[0] == YFrom * width
    ensures |ys| >= 2 ==> ys[|ys| - 1] == YTo * width
  {
    Linspace(YFrom * width, YTo * width, RowCount(n))
  }

  /** Neighbouring rows are one equal step of `0.6 * width / (RowCount(n) - 1)` apart. */
  lemma RowsEvenlySpaced(width: real, n: int)
    requires n >= 1
    ensures var ys := RowYs(width, n);
      forall i :: 0 <= i < |ys| - 1 ==>
        ys[i + 1] - ys[i] == (YTo * width - YFrom * width) / ((|ys| - 1) as real)
  {
    if RowCount(n) >= 2 {
      LinspaceEvenlySpaced(YFrom * width, YTo * width, RowCount(n));
    }
  }

  /** `[(x, y) for y in ys for x in xs]`: the row-major cross product. */
  function CrossProduct(xs: seq<real>, ys: seq<real>): (r: seq<Point>)
    decreases |ys|
  {
    if |ys| == 0 then []
    else seq(|xs|, i requires 0 <= i < |xs| => Point(xs[i], ys[0])) + CrossProduct(xs, ys[1..])
  }

  /** The cross product has `|xs| * |ys|` items. */
  lemma {:induction false} CrossProductLength(xs: seq<real>, ys: seq<real>)
    ensures |CrossProduct(xs, ys)| == |xs| * |ys|
    decreases |ys|
  {
    if |ys| > 0 {
      CrossProductLength(xs, ys[1..]);
      assert |xs| * |ys| == |xs| * (|ys| - 1) + |xs|;
    }
  }

  /** Item `k` of the cross product is column `k mod |xs|` of row
      `k div |xs|`. */
  lemma {:induction false} CrossProductIndex(xs: seq<real>, ys: seq<real>)
    requires |xs| > 0
    ensures forall k :: 0 <= k < |CrossProduct(xs, ys)| ==>
              k / |xs| < |ys| && CrossProduct(xs, ys)[k] == Point(xs[k % |xs|], ys[k / |xs|])
    decreases |ys|
  {
    var p := |xs|;
    if |ys| > 0 {
      var r := CrossProduct(xs, ys);
      var head := seq(p, i requires 0 <= i < p => Point(xs[i], ys[0]));
      var tail := CrossProduct(xs, ys[1..]);
      CrossProductIndex(xs, ys[1..]);
      assert r == head + tail;
      forall k | 0 <= k < |r|
        ensures k / p < |ys| && r[k] == Point(xs[k % p], ys[k / p])
      {
        if k < p {
          DivModUnique(k, p, 0, k);
        } else {
          DivModShift(k, p);
          assert r[k] == tail[k - p];
        }
      }
    }
  }

  /** Every point of the cross product pairs some x of `xs` with some y
      of `ys`. */
  lemma {:induction false} CrossProductMembers(xs: seq<real>, ys: seq<real>)
    ensures forall q :: q in CrossProduct(xs, ys) ==> q.x in xs && q.y in ys
    decreases |ys|
  {
    if |ys| > 0 {
      var head := seq(|xs|, i requires 0 <= i < |xs| => Point(xs[i], ys[0]));
      CrossProductMembers(xs, ys[1..]);
      assert CrossProduct(xs, ys) == head + CrossProduct(xs, ys[1..]);
      forall q | q in CrossProduct(xs, ys)
        ensures q.x in xs && q.y in ys
      {
        if q in head {
          var i :| 0 <= i < |xs| && head[i] == q;
        } else {
          assert q.y in ys[1..];
        }
      }
    }
  }

  /** The generated marker positions: none for fewer than two players,
      otherwise the cross product cut to the first `n` positions. */
  function PlayerPoints(length: real, width: real, n: int): (pts: seq<Point>)
    ensures n < 2 ==> pts == []
  {
    if n < 2 then []
    else Take(CrossProduct(ColumnXs(length, n), RowYs(width, n)), n)
  }

  /** For two or more players the cut keeps exactly `n` positions, and
      every one of them falls within the `RowCount(n)` rows. */
  lemma PlayerPointsCount(length: real, width: real, n: int)
    requires n >= 2
    ensures |PlayerPoints(length, width, n)| == n
    ensures forall k :: 0 <= k < n ==> k / PerRow(n) < RowCount(n)
  {
    var p, rows := PerRow(n), RowCount(n);
    var xs, ys := ColumnXs(length, n), RowYs(width, n);
    assert n <= |CrossProduct(xs, ys)| by {
      CrossProductLength(xs, ys);
      assert |CrossProduct(xs, ys)| == p * rows;
      assert n <= rows * p;
    }
    forall k | 0 <= k < n
      ensures k / p < rows
    {
      CrossProductIndex(xs, ys);
    }
  }

  /** Marker `k` stands in column `k mod PerRow(n)` of row `k div PerRow(n)`. */
  lemma PlayerPointsGrid(length: real, width: real, n: int)
    requires n >= 2
    ensures forall k :: 0 <= k < |PlayerPoints(length, width, n)| ==>
              && k / PerRow(n) < RowCount(n)
              && PlayerPoints(length, width, n)[k]
                 == Point(ColumnXs(length, n)[k % PerRow(n)], RowYs(width, n)[k / PerRow(n)])
  {
    var p, rows := PerRow(n), RowCount(n);
    var xs, ys := ColumnXs(length, n), RowYs(width, n);
    var cp := CrossProduct(xs, ys);
    PlayerPointsCount(length, width, n);
    var pts := PlayerPoints(length, width, n);
    assert pts == cp[..n];
    forall k | 0 <= k < n
      ensures k / p < rows && pts[k] == Point(xs[k % p], ys[k / p])
    {
      CrossProductIndex(xs, ys);
      assert pts[k] == cp[k];
    }
  }

  /** On a pitch of non-negative size every marker lies in the central box
      `[0.1 L, 0.9 L] x [0.2 W, 0.8 W]`, hence on the pitch. */
  lemma PlayerPointsInsideBox(length: real, width: real, n: int)
    requires length >= 0.0 && width >= 0.0
    ensures forall q :: q in PlayerPoints(length, width, n) ==>
              && XFrom * length <= q.x <= XTo * length
              && YFrom * width <= q.y <= YTo * width
              && 0.0 <= q.x <= length && 0.0 <= q.y <= width
  {
    if n >= 2 {
      var xs, ys := ColumnXs(length, n), RowYs(width, n);
      var cp := CrossProduct(xs, ys);
      var pts := PlayerPoints(length, width, n);
      assert pts == Take(cp, n);
      CrossProductMembers(xs, ys);
      LinspaceBounds(XFrom * length, XTo * length, PerRow(n));
      LinspaceBounds(YFrom * width, YTo * width, RowCount(n));
      forall q | q in pts
        ensures XFrom * length <= q.x <= XTo * length && YFrom * width <= q.y <= YTo * width
      {
        var k :| 0 <= k < |pts| && pts[k] == q;
        assert q == cp[k];
        assert q in cp;
        var i :| 0 <= i < |xs| && xs[i] == q.x;
        var j :| 0 <= j < |ys| && ys[j] == q.y;
      }
    }
  }

  /** `pts[:half]` and `pts[half:]` with `half = len(pts) // 2`. */
  function SplitTeams(pts: seq<Point>): (t: Teams)
    ensures t.a + t.b == pts
    ensures |t.a| == |pts| / 2
    ensures |t.b| - |t.a| == |pts| % 2
  {
    var half := |pts| / 2;
    Teams(pts[..half], pts[half..])
  }

  /** `enumerate(pts, start)`: each position paired with its running number. */
  function Enumerate(pts: seq<Point>, start: int): (r: seq<Label>)
    ensures |r| == |pts|
    decreases |pts|
  {
    if |pts| == 0 then [] else [Label(start, pts[0])] + Enumerate(pts[1..], start + 1)
  }

  /** Label `i` carries number `start + i` and marks position `i`. */
  lemma {:induction false} EnumerateNumbers(pts: seq<Point>, start: int)
    ensures forall i :: 0 <= i < |pts| ==> Enumerate(pts, start)[i] == Label(start + i, pts[i])
    decreases |pts|
  {
    if |pts| > 0 {
      EnumerateNumbers(pts[1..], start + 1);
      var r := Enumerate(pts, start);
      assert r == [Label(start, pts[0])] + Enumerate(pts[1..], start + 1);
      forall i | 0 <= i < |pts|
        ensures r[i] == Label(start + i, pts[i])
      {
        if i > 0 {
          assert r[i] == Enumerate(pts[1..], start + 1)[i - 1];
        }
      }
    }
  }

  /** The markers for a `length` by `width` pitch and `players` players,
      split into the two teams and numbered from 1 in generation order. */
  function PlaceSquad(length: real, width: real, players: real): (s: Squad)
    ensures s.points == PlayerPoints(length, width, PlayerCount(players))
    ensures s.teamA + s.teamB == s.points
    ensures |s.teamA| == |s.points| / 2
    ensures |s.labels| == |s.points|
    ensures forall k :: 0 <= k < |s.labels| ==> s.labels[k] == Label(k + 1, s.points[k])
  {
    var pts := PlayerPoints(length, width, PlayerCount(players));
    var teams := SplitTeams(pts);
    EnumerateNumbers(pts, 1);
    Squad(pts, teams.a, teams.b, Enumerate(pts, 1))
  }

  /** The squad has exactly `n` markers for `n >= 2` and none otherwise;
      Team A is the first `n // 2` of them and Team B the rest, so an odd
      extra player joins Team B; labels run `1..n` in generation order,
      are pairwise distinct, and continue across the team boundary. */
  lemma SquadWellFormed(length: real, width: real, players: real)
    ensures var s := PlaceSquad(length, width, players);
      var n := PlayerCount(players);
      && (n < 2 ==> s.points == [] && s.teamA == [] && s.teamB == [] && s.labels == [])
      && (n >= 2 ==> |s.points| == n && |s.teamA| == n / 2 && |s.teamB| == n - n / 2)
      && s.teamA + s.teamB == s.points
      && 0 <= |s.teamB| - |s.teamA| <= 1
      && (forall k :: 0 <= k < |s.labels| ==> s.labels[k] == Label(k + 1, s.points[k]))
      && (forall i, j :: 0 <= i < j < |s.labels| ==> s.labels[i].number != s.labels[j].number)
      && (forall k :: 0 <= k < |s.teamA| ==> s.labels[k] == Label(k + 1, s.teamA[k]))
      && (forall k :: 0 <= k < |s.teamB| ==>
            s.labels[|s.teamA| + k] == Label(|s.teamA| + k + 1, s.teamB[k]))
  {
    var s := PlaceSquad(length, width, players);
    var n := PlayerCount(players);
    if n >= 2 {
      PlayerPointsCount(length, width, n);
    }
    EnumerateNumbers(s.points, 1);
    assert |s.labels| == |s.points|;
    forall k | 0 <= k < |s.teamB|
      ensures s.labels[|s.teamA| + k] == Label(|s.teamA| + k + 1, s.teamB[k])
    {
      assert s.points[|s.teamA| + k] == s.teamB[k];
    }
  }

  /** Eight players: four per row in two rows, Team A the first four
      markers, Team B the last four, labelled 1 to 8 in row-major order. */
  lemma EightPlayerSquad(length: real, width: real)
    ensures PerRow(8) == 4 && RowCount(8) == 2
    ensures var s := PlaceSquad(length, width, 8.0);
      && |s.points| == 8
      && s.teamA == s.points[..4] && s.teamB == s.points[4..]
      && (forall k :: 0 <= k < 8 ==> s.labels[k].number == k + 1)
  {
    assert PlayerCount(8.0) == 8;
    SquadWellFormed(length, width, 8.0);
  }
}

=== FILE: markings.dfy ===
/** The regulation pitch markings, scaled to a small-sided pitch of
    `length` by `width`. Regulation sizes are fixed; the circle and arc
    radius and the two box widths are clipped so that they fit small pitches,
    and every right-hand shape is the mirror image of its left-hand twin. */
module Markings {
  import opened Numeric
  import opened Shapes

  // Regulation sizes, in the pitch's length unit (metres).
  const PenaltyDepth: real := 16.5
  const PenaltyWidth: real := 40.32
  const GoalDepth: real := 5.5
  const GoalWidth: real := 18.32
  const SpotDistance: real := 11.0
  const CentreCircleRadius: real := 9.15
  const CornerRadius: real := 1.0

  /** Share of the pitch width a box may take at most. */
  const PenaltyWidthShare: real := 0.9
  const GoalWidthShare: real := 0.6

  /** Depth of the goal frames drawn just outside each goal line. */
  const GoalFrameDepth: real := 1.5

  /** Spacing of the background reference grid. */
  const GridStep: int := 5

  // Arc orientation, in degrees: penalty arcs sweep from 310 through 0 to 50,
  // the right one rotated by 180; corner arcs sweep a quarter from 0 to 90.
  const PenaltyArcTheta1: real := 310.0
  const PenaltyArcTheta2: real := 50.0
  const LeftArcAngle: real := 0.0
  const RightArcAngle: real := 180.0
  const CornerArcTheta1: real := 0.0
  const CornerArcTheta2: real := 90.0

  /** The vertical placement of a box: lower edge `y0` and extent `height`. */
  datatype Band = Band(y0: real, height: real)

  datatype Markings = Markings(
    outline: Rect,
    halfway: Segment,
    centreCircle: Circle,
    centreSpot: Point,
    leftPenaltyBox: Rect,
    rightPenaltyBox: Rect,
    leftSixYardBox: Rect,
    rightSixYardBox: Rect,
    leftSpot: Point,
    rightSpot: Point,
    leftPenaltyArc: Arc,
    rightPenaltyArc: Arc,
    leftGoal: Rect,
    rightGoal: Rect,
    cornerArcs: seq<Arc>,
    gridX: seq<Segment>,
    gridY: seq<Segment>)

  /** Radius shared by the centre circle and both penalty arcs: the
      regulation 9.15 unless a third of the length or of the width is less. */
  function ClippedRadius(length: real, width: real): (r: real)
    ensures r <= CentreCircleRadius && r <= length / 3.0 && r <= width / 3.0
    ensures r == CentreCircleRadius || r == length / 3.0 || r == width / 3.0
  {
    Min3(CentreCircleRadius, length / 3.0, width / 3.0)
  }

  /** A box band: the regulation width clipped to `share` of the pitch
      width, centred across the pitch. */
  function CentredBand(regulation: real, share: real, width: real): (b: Band)
    ensures b.height <= regulation && b.height <= width * share
    ensures b.height == regulation || b.height == width * share
    ensures b.y0 + b.height == width - b.y0
  {
    var h := Min2(regulation, width * share);
    Band((width - h) / 2.0, h)
  }

  /** x (or y) positions of the background grid across an extent:
      `range(5, int(extent), 5)`. */
  function GridPositions(extent: real): (r: seq<int>)
  {
    PyRange(GridStep, Trunc(extent), GridStep)
  }

  /** The grid positions are exactly the positive multiples of five below
      `int(extent)`, in increasing order; for a non-negative extent none lies
      on either boundary of the pitch. */
  lemma GridPositionsExact(extent: real)
    ensures forall i :: 0 <= i < |GridPositions(extent)| ==> GridPositions(extent)[i] == GridStep * (i + 1)
    ensures forall x :: x in GridPositions(extent) <==> GridStep <= x < Trunc(extent) && x % GridStep == 0
    ensures forall x :: x in GridPositions(extent) ==> 0.0 < x as real < extent
  {
    PyRangeMembers(GridStep, Trunc(extent), GridStep);
    forall x | x in GridPositions(extent)
      ensures 0.0 < x as real < extent
    {
      assert x < Trunc(extent);
    }
    forall x
      ensures x in GridPositions(extent) <==> GridStep <= x < Trunc(extent) && x % GridStep == 0
    {
      if GridStep <= x {
        DivModUnique(x, GridStep, x / GridStep - 1 + 1, x % GridStep);
        DivModUnique(x - GridStep, GridStep, x / GridStep - 1, x % GridStep);
      }
    }
  }

  /** Full-width vertical lines at the given x positions. */
  function VerticalLines(xs: seq<int>, width: real): (r: seq<Segment>)
    ensures |r| == |xs|
  {
    seq(|xs|, i requires 0 <= i < |xs| => Segment(Point(xs[i] as real, 0.0), Point(xs[i] as real, width)))
  }

  /** Full-length horizontal lines at the given y positions. */
  function HorizontalLines(ys: seq<int>, length: real): (r: seq<Segment>)
    ensures |r| == |ys|
  {
    seq(|ys|, i requires 0 <= i < |ys| => Segment(Point(0.0, ys[i] as real), Point(length, ys[i] as real)))
  }

  /** A quarter arc of the corner radius at `(cx, cy)`. */
  function CornerArc(cx: real, cy: real): Arc
  {
    Arc(Point(cx, cy), 2.0 * CornerRadius, 2.0 * CornerRadius, 0.0, CornerArcTheta1, CornerArcTheta2)
  }

  /** Every marking of a `length` by `width` pitch. */
  function PitchMarkings(length: real, width: real): (m: Markings)
    ensures m.outline == Rect(Point(0.0, 0.0), length, width)
    ensures m.centreCircle.centre == m.centreSpot == Point(length / 2.0, width / 2.0)
    ensures m.halfway == Segment(Point(length / 2.0, 0.0), Point(length / 2.0, width))
    ensures m.centreCircle.radius == ClippedRadius(length, width)
    ensures m.leftPenaltyArc.width == m.leftPenaltyArc.height == 2.0 * m.centreCircle.radius
    ensures m.rightPenaltyArc.width == m.rightPenaltyArc.height == 2.0 * m.centreCircle.radius
    ensures m.leftPenaltyBox.corner.x == 0.0 && m.leftPenaltyBox.width == PenaltyDepth
    ensures m.leftSixYardBox.corner.x == 0.0 && m.leftSixYardBox.width == GoalDepth
    ensures m.rightPenaltyBox.corner.x == length - PenaltyDepth && m.rightPenaltyBox.corner.x + m.rightPenaltyBox.width == length
    ensures m.rightSixYardBox.corner.x == length - GoalDepth && m.rightSixYardBox.corner.x + m.rightSixYardBox.width == length
    ensures m.leftPenaltyBox.height <= PenaltyWidth && m.leftPenaltyBox.height <= PenaltyWidthShare * width
    ensures m.leftSixYardBox.height <= GoalWidth && m.leftSixYardBox.height <= GoalWidthShare * width
    ensures m.leftPenaltyBox.corner.y + m.leftPenaltyBox.height == width - m.leftPenaltyBox.corner.y
    ensures m.leftSixYardBox.corner.y + m.leftSixYardBox.height == width - m.leftSixYardBox.corner.y
    ensures m.leftGoal.corner.y == m.rightGoal.corner.y == m.leftSixYardBox.corner.y
    ensures m.leftGoal.height == m.leftSixYardBox.height
    ensures m.leftGoal.width == m.rightGoal.width == GoalFrameDepth
    ensures m.leftGoal.corner.x + m.leftGoal.width == 0.0 && m.rightGoal.corner.x == length
    ensures m.leftSpot.x == SpotDistance && m.rightSpot.x == length - SpotDistance
    ensures m.leftSpot.y == m.rightSpot.y == width / 2.0
    ensures |m.cornerArcs| == 4
    ensures |m.gridX| == |GridPositions(length)| && |m.gridY| == |GridPositions(width)|
  {
    var centre := Point(length / 2.0, width / 2.0);
    var r := ClippedRadius(length, width);
    var pen := CentredBand(PenaltyWidth, PenaltyWidthShare, width);
    var six := CentredBand(GoalWidth, GoalWidthShare, width);
    var goalPostY0 := centre.y - six.height / 2.0;
    Markings(
      outline := Rect(Point(0.0, 0.0), length, width),
      halfway := Segment(Point(length / 2.0, 0.0), Point(length / 2.0, width)),
      centreCircle := Circle(centre, r),
      centreSpot := centre,
      leftPenaltyBox := Rect(Point(0.0, pen.y0), PenaltyDepth, pen.height),
      rightPenaltyBox := Rect(Point(length - PenaltyDepth, pen.y0), PenaltyDepth, pen.height),
      leftSixYardBox := Rect(Point(0.0, six.y0), GoalDepth, six.height),
      rightSixYardBox := Rect(Point(length - GoalDepth, six.y0), GoalDepth, six.height),
      leftSpot := Point(SpotDistance, centre.y),
      rightSpot := Point(length - SpotDistance, centre.y),
      leftPenaltyArc := Arc(Point(SpotDistance, centre.y), 2.0 * r, 2.0 * r, LeftArcAngle, PenaltyArcTheta1, PenaltyArcTheta2),
      rightPenaltyArc := Arc(Point(length - SpotDistance, centre.y), 2.0 * r, 2.0 * r, RightArcAngle, PenaltyArcTheta1, PenaltyArcTheta2),
      leftGoal := Rect(Point(-GoalFrameDepth, goalPostY0), GoalFrameDepth, six.height),
      rightGoal := Rect(Point(length, goalPostY0), GoalFrameDepth, six.height),
      cornerArcs := [CornerArc(0.0, 0.0), CornerArc(0.0, width), CornerArc(length, 0.0), CornerArc(length, width)],
      gridX := VerticalLines(GridPositions(length), width),
      gridY := HorizontalLines(GridPositions(width), length))
  }

  /** The right half of the markings is the mirror image of the left half in
      the halfway line, and the halfway line and centre circle sit on it. */
  lemma MarkingsMirrorSymmetric(length: real, width: real)
    ensures var m := PitchMarkings(length, width);
      && m.rightPenaltyBox == MirrorRect(m.leftPenaltyBox, length)
      && m.rightSixYardBox == MirrorRect(m.leftSixYardBox, length)
      && m.rightGoal == MirrorRect(m.leftGoal, length)
      && m.rightSpot == MirrorPoint(m.leftSpot, length)
      && m.rightPenaltyArc.centre == MirrorPoint(m.leftPenaltyArc.centre, length)
      && m.rightPenaltyArc.centre == m.rightSpot && m.leftPenaltyArc.centre == m.leftSpot
      && m.halfway.start.x == m.halfway.stop.x == m.centreCircle.centre.x == length / 2.0
      && length / 2.0 - m.leftSpot.x == m.rightSpot.x - length / 2.0
  {
  }

  /** On a pitch of positive width both boxes and the goal frames are
      vertically centred and lie strictly inside the width. */
  lemma MarkingsBoxesInside(length: real, width: real)
    requires width > 0.0
    ensures var m := PitchMarkings(length, width);
      && 0.0 < m.leftPenaltyBox.corner.y && m.leftPenaltyBox.corner.y + m.leftPenaltyBox.height < width
      && 0.0 < m.leftSixYardBox.corner.y && m.leftSixYardBox.corner.y + m.leftSixYardBox.height < width
      && 0.0 < m.leftGoal.corner.y && m.leftGoal.corner.y + m.leftGoal.height < width
      && m.leftSixYardBox.height < m.leftPenaltyBox.height
  {
  }

  /** Box depths are not clipped: on a pitch of positive length the two
      penalty boxes overlap exactly when it is shorter than two regulation
      depths. */
  lemma PenaltyBoxesOverlap(length: real, width: real)
    ensures var m := PitchMarkings(length, width);
      OverlapAlongX(m.leftPenaltyBox, m.rightPenaltyBox) <==> 0.0 < length < 2.0 * PenaltyDepth
  {
  }

  /** The four corner arcs sit on the four corners of the pitch, each a
      quarter circle of the corner radius. */
  lemma CornerArcsAtCorners(length: real, width: real)
    ensures var m := PitchMarkings(length, width);
      && (set a | a in m.cornerArcs :: a.centre)
         == {Point(0.0, 0.0), Point(0.0, width), Point(length, 0.0), Point(length, width)}
      && forall a :: a in m.cornerArcs ==>
           a.width == a.height == 2.0 * CornerRadius && a.theta2 - a.theta1 == 90.0
  {
    var m := PitchMarkings(length, width);
    assert m.cornerArcs[0].centre == Point(0.0, 0.0);
    assert m.cornerArcs[1].centre == Point(0.0, width);
    assert m.cornerArcs[2].centre == Point(length, 0.0);
    assert m.cornerArcs[3].centre == Point(length, width);
  }

  /** All four corner arcs are unrotated and sweep the same 0 to 90 degree
      quadrant, so only the arc at the origin bends into the pitch: each of
      the other three has an end point outside the outline, while on a pitch
      at least one unit long and wide both ends of the origin arc lie on it. */
  lemma CornerArcsShareQuadrant(length: real, width: real)
    ensures var m := PitchMarkings(length, width);
      forall a :: a in m.cornerArcs ==>
        a.angle == 0.0 && a.theta1 == 0.0 && a.theta2 == 90.0
    ensures var m := PitchMarkings(length, width);
      && (forall i :: 1 <= i < |m.cornerArcs| ==>
            var ends := QuadrantEnds(m.cornerArcs[i]);
            !Contains(m.outline, ends.0) || !Contains(m.outline, ends.1))
      && (length >= CornerRadius && width >= CornerRadius ==>
            var ends := QuadrantEnds(m.cornerArcs[0]);
            Contains(m.outline, ends.0) && Contains(m.outline, ends.1))
  {
  }

  /** Each grid line spans the pitch at a multiple of five strictly between
      the two boundaries it is parallel to: line `i` lies at `5 * (i + 1)`. */
  lemma GridLinesInterior(length: real, width: real)
    ensures var m := PitchMarkings(length, width);
      && (forall i :: 0 <= i < |m.gridX| ==> m.gridX[i].start.x == (GridStep * (i + 1)) as real)
      && (forall i :: 0 <= i < |m.gridY| ==> m.gridY[i].start.y == (GridStep * (i + 1)) as real)
    ensures var m := PitchMarkings(length, width);
      && (forall s :: s in m.gridX ==>
            s.start.x == s.stop.x && s.start.y == 0.0 && s.stop.y == width && 0.0 < s.start.x < length)
      && (forall s :: s in m.gridY ==>
            s.start.y == s.stop.y && s.start.x == 0.0 && s.stop.x == length && 0.0 < s.start.y < width)
  {
    var m := PitchMarkings(length, width);
    GridPositionsExact(length);
    GridPositionsExact(width);
    var xs, ys := GridPositions(length), GridPositions(width);
    forall s | s in m.gridX
      ensures s.start.x == s.stop.x && s.start.y == 0.0 && s.stop.y == width && 0.0 < s.start.x < length
    {
      var i :| 0 <= i < |m.gridX| && m.gridX[i] == s;
      assert xs[i] in xs;
    }
    forall s | s in m.gridY
      ensures s.start.y == s.stop.y && s.start.x == 0.0 && s.stop.x == length && 0.0 < s.start.y < width
    {
      var i :| 0 <= i < |m.gridY| && m.gridY[i] == s;
      assert ys[i] in ys;
    }
  }
}

=== FILE: numeric.dfy ===
/** The handful of Python and numpy numeric primitives the pitch layout is
    built from, over exact integers and reals: `np.ceil`, `int()`
    on a float, `min`/`max`, `range(start, stop, step)`, `np.linspace` and
    list slicing `s[:n]`. Each carries a contract that characterises it
    independently of how it is computed. */
module Numeric {

  /** `np.ceil(x)`: the least integer not below `x`. */
  function Ceil(x: real): (r: int)
    ensures (r - 1) as real < x <= r as real
  {
    -((-x).Floor)
  }

  /** `int(x)` on a float: truncation toward zero. */
  function Trunc(x: real): (r: int)
    ensures x >= 0.0 ==> 0 <= r && r as real <= x < (r + 1) as real
    ensures x < 0.0 ==> r <= 0 && (r - 1) as real < x <= r as real
  {
    if x >= 0.0 then x.Floor else -((-x).Floor)
  }

  /** Bounds on a quotient carry over to the dividend. */
  lemma ScaleQuotient(lo: real, x: real, hi: real, d: real)
    requires d > 0.0 && lo < x / d <= hi
    ensures lo * d < x <= hi * d
  {
    var q := x / d;
    assert q * d == x;
    assert q * d - lo * d == (q - lo) * d;
    assert hi * d - q * d == (hi - q) * d;
  }

  lemma IntMulAsReal(a: int, b: int)
    ensures (a * b) as real == (a as real) * (b as real)
  {
  }

  /** `ceil(n / p)` for a positive integer `p`, stated on integers: the
      least count of `p`-sized groups that holds `n`. */
  lemma CeilDivBounds(n: int, p: int)
    requires p > 0
    ensures (Ceil(n as real / p as real) - 1) * p < n <= Ceil(n as real / p as real) * p
  {
    var c := Ceil(n as real / p as real);
    ScaleQuotient((c - 1) as real, n as real, c as real, p as real);
    IntMulAsReal(c - 1, p);
    IntMulAsReal(c, p);
  }

  /** Python's `min(a, b, c)` on reals. */
  function Min3(a: real, b: real, c: real): (r: real)
    ensures r <= a && r <= b && r <= c
    ensures r == a || r == b || r == c
  {
    var ab := if b < a then b else a;
    if c < ab then c else ab
  }

  /** Python's `min(a, b)` on reals. */
  function Min2(a: real, b: real): (r: real)
    ensures r <= a && r <= b
    ensures r == a || r == b
  {
    if b < a then b else a
  }

  /** Python's `min(hi, max(lo, v))` on integers. */
  function Clamp(lo: int, hi: int, v: int): (r: int)
    requires lo <= hi
    ensures lo <= r <= hi
    ensures lo <= v <= hi ==> r == v
    ensures v < lo ==> r == lo
    ensures hi < v ==> r == hi
  {
    if v < lo then lo else if hi < v then hi else v
  }

  /** Python's `list(range(start, stop, step))` for a positive step. */
  function PyRange(start: int, stop: int, step: int): (r: seq<int>)
    requires step > 0
    ensures start >= stop <==> r == []
    decreases stop - start
  {
    if start >= stop then [] else [start] + PyRange(start + step, stop, step)
  }

  /** A positive multiple of at least one step reaches the step. */
  lemma {:induction false} MulAtLeast(p: int, d: int)
    requires p > 0 && d >= 1
    ensures p * d >= p
    decreases d
  {
    if d > 1 {
      MulAtLeast(p, d - 1);
      assert p * d == p * (d - 1) + p;
    }
  }

  /** Euclidean quotient and remainder are unique. */
  lemma DivModUnique(a: int, p: int, q: int, r: int)
    requires p > 0 && 0 <= r < p && a == p * q + r
    ensures a / p == q && a % p == r
  {
    var q', r' := a / p, a % p;
    assert a == p * q' + r';
    if q' > q {
      assert p * q' == p * q + p * (q' - q);
      MulAtLeast(p, q' - q);
    } else if q' < q {
      assert p * q == p * q' + p * (q - q');
      MulAtLeast(p, q - q');
    }
  }

  /** Removing one divisor from a dividend of at least the divisor lowers
      the quotient by one and keeps the remainder. */
  lemma DivModShift(k: int, p: int)
    requires p > 0 && k >= p
    ensures k / p == (k - p) / p + 1 && k % p == (k - p) % p
  {
    var j := k - p;
    assert j == p * (j / p) + j % p;
    assert k == p * (j / p + 1) + j % p;
    DivModUnique(k, p, j / p + 1, j % p);
  }

  /** A value at or above `start` is congruent to `start` modulo `step`
      exactly when it is `start` itself or one step further on is. */
  lemma CongruentStep(x: int, start: int, step: int)
    requires step > 0 && start <= x
    ensures (x - start) % step == 0 <==> x == start || (x >= start + step && (x - start - step) % step == 0)
  {
    if x == start {
      DivModUnique(0, step, 0, 0);
    } else if x < start + step {
      DivModUnique(x - start, step, 0, x - start);
    } else {
      DivModShift(x - start, step);
    }
  }

  /** Element `i` of `range(start, stop, step)` is `start + i*step`, and the
      range holds exactly the values in `[start, stop)` that are congruent to
      `start` modulo `step`. */
  lemma {:induction false} PyRangeMembers(start: int, stop: int, step: int)
    requires step > 0
    ensures forall i :: 0 <= i < |PyRange(start, stop, step)| ==>
              PyRange(start, stop, step)[i] == start + i * step
    ensures forall x :: x in PyRange(start, stop, step) <==>
              start <= x < stop && (x - start) % step == 0
    decreases stop - start
  {
    var r := PyRange(start, stop, step);
    if start < stop {
      var rest := PyRange(start + step, stop, step);
      PyRangeMembers(start + step, stop, step);
      assert r == [start] + rest;
      forall i | 0 <= i < |r|
        ensures r[i] == start + i * step
      {
        if i > 0 {
          assert r[i] == rest[i - 1];
          assert (i - 1) * step + step == i * step;
        }
      }
      forall x
        ensures x in r <==> start <= x < stop && (x - start) % step == 0
      {
        if start <= x {
          CongruentStep(x, start, step);
        }
      }
    }
  }

  /** Real-arithmetic facts used by the linspace proofs, each on its own so
      that the solver sees no more than it needs. */
  lemma MulDivCancel(x: real, d: real)
    requires d != 0.0
    ensures d * (x / d) == x
  {
  }

  lemma DivNonNegative(x: real, d: real)
    requires x >= 0.0 && d > 0.0
    ensures x / d >= 0.0
  {
  }

  lemma MulSucc(i: real, s: real)
    ensures (i + 1.0) * s == i * s + s
  {
  }

  lemma ScaleBetween(i: real, d: real, s: real)
    requires 0.0 <= i <= d && s >= 0.0
    ensures 0.0 <= i * s <= d * s
  {
    assert d * s - i * s == (d - i) * s;
  }

  /** `np.linspace(a, b, k)`: `k` evenly spaced values from `a` to `b`
      inclusive, computed as `a + i * step` with `step = (b - a) / (k - 1)`;
      a single value is `[a]`. */
  function Linspace(a: real, b: real, k: nat): (r: seq<real>)
    ensures |r| == k
    ensures k >= 1 ==> r[0] == a
    ensures k >= 2 ==> r[k - 1] == b
  {
    if k == 0 then []
    else if k == 1 then [a]
    else
      var step := (b - a) / ((k - 1) as real);
      MulDivCancel(b - a, (k - 1) as real);
      seq(k, i requires 0 <= i < k => a + (i as real) * step)
  }

  /** Neighbouring linspace values are one equal step apart. */
  lemma LinspaceEvenlySpaced(a: real, b: real, k: nat)
    requires k >= 2
    ensures forall i :: 0 <= i < k - 1 ==>
              Linspace(a, b, k)[i + 1] - Linspace(a, b, k)[i] == (b - a) / ((k - 1) as real)
  {
    var r := Linspace(a, b, k);
    var step := (b - a) / ((k - 1) as real);
    forall i | 0 <= i < k - 1
      ensures r[i + 1] - r[i] == step
    {
      MulSucc(i as real, step);
    }
  }

  /** For `a <= b` every linspace value lies in `[a, b]`. */
  lemma LinspaceBounds(a: real, b: real, k: nat)
    requires a <= b
    ensures forall i :: 0 <= i < k ==> a <= Linspace(a, b, k)[i] <= b
  {
    var r := Linspace(a, b, k);
    if k >= 2 {
      var d := (k - 1) as real;
      var step := (b - a) / d;
      DivNonNegative(b - a, d);
      MulDivCancel(b - a, d);
      forall i | 0 <= i < k
        ensures a <= r[i] <= b
      {
        ScaleBetween(i as real, d, step);
      }
    }
  }

  /** Python's slice `s[:n]` for `n >= 0`: the first `n` items, or all of
      `s` when it is shorter. */
  function Take<T>(s: seq<T>, n: nat): (r: seq<T>)
    ensures |r| == if n <= |s| then n else |s|
    ensures forall i :: 0 <= i < |r| ==> r[i] == s[i]
  {
    if n <= |s| then s[..n] else s
  }
}

=== FILE: pitch.dfy ===
/** The whole pitch picture as data: figure proportions, the markings and
    the player markers, computed from the pitch length, the pitch width and
    the number of players. Identical inputs give an identical layout, since
    every part is a pure function of them. */
module Pitch {
  import opened Shapes
  import M = Markings
  import opened AutoLayout

  /** The figure is 8 wide and at least 4 high. */
  const FigureWidth: real := 8.0
  const MinFigureHeight: real := 4.0

  datatype Figure = Figure(width: real, height: real)

  datatype PitchLayout = PitchLayout(figure: Figure, markings: M.Markings, squad: Squad)

  /** Width over length, or 1 for a pitch of length zero so that nothing is
      divided by zero. */
  function AspectRatio(length: real, width: real): (ratio: real)
    ensures length == 0.0 ==> ratio == 1.0
    ensures length != 0.0 ==> ratio * length == width
  {
    if length != 0.0 then width / length else 1.0
  }

  /** Figure proportions: the fixed width, and the height that keeps the
      pitch's aspect ratio but never drops below the minimum. */
  function FigureSize(length: real, width: real): (f: Figure)
    ensures f.width == FigureWidth
    ensures f.height >= MinFigureHeight && f.height >= FigureWidth * AspectRatio(length, width)
    ensures f.height == MinFigureHeight || f.height == FigureWidth * AspectRatio(length, width)
    ensures length == 0.0 ==> f.height == FigureWidth
  {
    var h := FigureWidth * AspectRatio(length, width);
    Figure(FigureWidth, if h < MinFigureHeight then MinFigureHeight else h)
  }

  /** The layout for a `length` by `width` pitch and `players` players: the
      figure, the markings and the numbered, split squad, all computed from
      the same three inputs. */
  function GenerateLayout(length: real, width: real, players: real): (l: PitchLayout)
    ensures l.figure == FigureSize(length, width)
    ensures l.figure.width == FigureWidth && l.figure.height >= MinFigureHeight
    ensures l.markings == M.PitchMarkings(length, width)
    ensures l.markings.outline == Rect(Point(0.0, 0.0), length, width)
    ensures l.squad == PlaceSquad(length, width, players)
    ensures l.squad.teamA + l.squad.teamB == l.squad.points
    ensures |l.squad.labels| == |l.squad.points|
  {
    PitchLayout(FigureSize(length, width), M.PitchMarkings(length, width), PlaceSquad(length, width, players))
  }

  /** On a pitch of non-negative size every player marker lies within the
      outline; there is one numbered marker per player when there are two or
      more, none otherwise; and the centre circle never exceeds a third of
      either side nor the regulation radius. */
  lemma LayoutFitsPitch(length: real, width: real, players: real)
    requires length >= 0.0 && width >= 0.0
    ensures var l := GenerateLayout(length, width, players);
      var o := l.markings.outline;
      var n := PlayerCount(players);
      && (forall q :: q in l.squad.points ==> Contains(o, q))
      && |l.squad.labels| == (if n >= 2 then n else 0)
      && l.markings.centreCircle.radius <= M.CentreCircleRadius
      && 3.0 * l.markings.centreCircle.radius <= length
      && 3.0 * l.markings.centreCircle.radius <= width
  {
    var l := GenerateLayout(length, width, players);
    var n := PlayerCount(players);
    assert l.markings.outline == Rect(Point(0.0, 0.0), length, width);
    assert l.squad.points == PlayerPoints(length, width, n);
    assert |l.squad.labels| == (if n >= 2 then n else 0) by {
      SquadWellFormed(length, width, players);
    }
    PlayerPointsInsideBox(length, width, n);
  }
}

=== FILE: shapes.dfy ===
/** Plain geometric descriptors: the data each drawing call of the pitch
    picture receives, with nothing of the rendering itself. Coordinates are in
    the pitch's length unit, x along the length and y across the width. */
module Shapes {

  datatype Point = Point(x: real, y: real)

  /** A straight line drawn from `start` to `stop`. */
  datatype Segment = Segment(start: Point, stop: Point)

  /** An axis-aligned rectangle given by its lower-left corner, its extent
      along x (`width`) and its extent along y (`height`). */
  datatype Rect = Rect(corner: Point, width: real, height: real)

  datatype Circle = Circle(centre: Point, radius: real)

  /** An elliptical arc: centre, the two diameters, a rotation `angle` of the
      whole ellipse and the swept range `theta1` to `theta2`, all in degrees. */
  datatype Arc = Arc(centre: Point, width: real, height: real, angle: real, theta1: real, theta2: real)

  /** Whether `p` lies on or within the rectangle `r` of non-negative extent. */
  predicate Contains(r: Rect, p: Point)
  {
    r.corner.x <= p.x <= r.corner.x + r.width && r.corner.y <= p.y <= r.corner.y + r.height
  }

  /** The end points of an unrotated arc swept from 0 to 90 degrees: the
      point at 0 degrees lies half a width to the right of the centre and the
      point at 90 degrees half a height above it. */
  function QuadrantEnds(a: Arc): (Point, Point)
    requires a.angle == 0.0 && a.theta1 == 0.0 && a.theta2 == 90.0
  {
    (Point(a.centre.x + a.width / 2.0, a.centre.y), Point(a.centre.x, a.centre.y + a.height / 2.0))
  }

  /** Reflection of a point in the vertical line `x = length / 2`. */
  function MirrorPoint(p: Point, length: real): (m: Point)
    ensures m.y == p.y
    ensures (m.x + p.x) / 2.0 == length / 2.0
  {
    Point(length - p.x, p.y)
  }

  /** Reflection of a rectangle in the vertical line `x = length / 2`: the
      left edge of the image is the reflection of the right edge of `r`. */
  function MirrorRect(r: Rect, length: real): (m: Rect)
    ensures m.width == r.width && m.height == r.height && m.corner.y == r.corner.y
    ensures m.corner.x + m.width == length - r.corner.x
  {
    Rect(Point(length - r.corner.x - r.width, r.corner.y), r.width, r.height)
  }

  /** True when the closed x-extents of two rectangles share more than an edge. */
  predicate OverlapAlongX(a: Rect, b: Rect)
  {
    a.corner.x < b.corner.x + b.width && b.corner.x < a.corner.x + a.width
  }
}
